=== FILE: README.md ===
# Blue connector core, modelled in Dafny

This project models the core of the Blue workflow connector. Blue is a node for
a workflow host that talks to a project-management GraphQL API. The model covers:

- **Locators** (`locators.dfy`). A company, project or todo-list parameter
  arrives as a plain string, as a `{mode, value}` object from a searchable
  dropdown, or not at all. It is always reduced to a bare identifier, and an
  unusable one becomes "".
- **Dropdown resolvers** (`list_search.dfy`). These are `searchCompanies`,
  `searchProjects` and `searchTodoLists`. They check their scope first. Then
  each sends one listing request and filters the candidates against the typed
  text with ASCII lower-casing and `includes`. Todo lists also lose their
  disabled entries and are sorted by position. The result is `{name, value}`
  entries. A resolver never fails: any failure becomes a single `Error: ...`
  entry.
- **The per-item execute loop** (`dispatch.dfy`). It looks up the operation,
  runs it, and either emits a record per item or aborts the batch at the first
  failure, depending on continue-on-fail.
- **The `getRecords` operation** (`get_records.dfy`, `records_query.dfy`). It
  normalizes the company and project and refuses a missing company. It builds
  the filter object clause by clause, applies the defaults (limit 50, skip 0,
  search "", completed records hidden), sends the query scoped to the company,
  and never throws. The query is modelled as a structure. It is also rendered
  to text with a reader that parses the text back.
- **Wiring** (`node.dfy`). This puts `getRecords` into the execute loop's
  operation table.

The outside world enters as function parameters:

- The HTTP exchange of the resolvers is a `transport: Request -> Response`.
  "Sends nothing" is stated as "the answer is the same for every transport".
- The request helper and response handler of `getRecords` together are one
  `send: Exchange -> Reply` function.
- The operation table of the execute loop is a map from names to handlers.

Supporting modules: `Values` (`Option` for missing parameters, `Checked` for a refused query), `OperationTypes` (the
shapes a JavaScript `throw` can take, and operation results), and `Text`
(ASCII lower-casing, `includes`, `join`, and decimal integer text with its
reader).

`getRecords` interpolates values into its query text with no escaping, and
the model keeps that. A value holding a double quote, a backslash or a line
break is not read back as itself: the quote can close the string literal
early, and the backslash or line break is not a plain character of a GraphQL
string literal. So the round trip `RecordsQueryText.QueryTextRoundTrip` holds
for values made of plain literal characters, and `RecordsQueryText.ReadQuotedRefuses`
shows the reader refusing the others. The dropdown resolvers' requests are
modelled as structures, not as text.

## Model

| member | source | states |
|---|---|---|
| Locators.Normalize | nodes/blue/blue.node.ts:759-766 | an object with a non-empty value yields that value, a string yields itself, and the result is empty exactly for an absent locator, an object with an empty value, or the empty string |
| Locators.NormalizeIgnoresShape | nodes/blue/blue.node.ts:858-863 | picking an identifier from the dropdown and typing it in give the same identifier, in either mode |
| Text.LowerAscii | nodes/blue/blue.node.ts:737-738 | lower-casing keeps the length, turns each ASCII capital into its small letter, leaves every other character alone, and leaves no capital behind |
| Text.LowerAsciiIdempotent | nodes/blue/blue.node.ts:737-738 | lower-casing lower-cased text changes nothing |
| Text.IncludesIffOccurs | nodes/blue/blue.node.ts:737-738 | the `includes` scan succeeds exactly when the needle occurs at some offset of the haystack |
| Text.IncludesEmpty | nodes/blue/blue.node.ts:736-739 | every string includes the empty string |
| Text.JoinSnoc | nodes/blue/blue.node.ts:730 | `join` agrees with ECMAScript's left-to-right accumulation: the text so far, the separator, then the next part |
| Text.JoinLength | nodes/blue/blue.node.ts:730 | the joined text holds every part plus one separator between neighbours |
| Text.NatText | nodes/blue/operations/GetRecordsOperation.ts:47-48 | the decimal text of a number is non-empty, made of digits, and has no leading zero |
| Text.DigitsValueOfNatText | nodes/blue/operations/GetRecordsOperation.ts:47-48 | the value of a number's decimal text is that number |
| Text.ReadIntText | nodes/blue/operations/GetRecordsOperation.ts:47-48 | reading the text of any integer, negative or not, gives that integer and the text after it, when no digit follows |
| ListSearch.Filter | nodes/blue/blue.node.ts:736-739 | the result is no longer than the input, and an element is kept exactly when it is in the input and passes the test |
| ListSearch.FilterConcat | nodes/blue/blue.node.ts:736-739 | filtering a concatenation concatenates the filtered parts, so survivors stay in input order |
| ListSearch.FilterKeepsAll | nodes/blue/blue.node.ts:736-739 | when every element passes, filtering changes nothing |
| ListSearch.FilterFilter | nodes/blue/blue.node.ts:932-937 | two filters in a row, search then enabled, keep exactly what passes both |
| ListSearch.MatchesIffOccurs | nodes/blue/blue.node.ts:736-739 | a candidate matches exactly when the filter is empty or the lower-cased filter occurs in one of its two lower-cased fields |
| ListSearch.MatchesIgnoresFilterCase | nodes/blue/blue.node.ts:736-739 | typing the filter in upper or lower case selects the same candidates |
| ListSearch.LabelsConcat | nodes/blue/blue.node.ts:741-744 | mapping candidates to entries commutes with concatenation |
| ListSearch.MatchingItems | nodes/blue/blue.node.ts:735-744 | the result is no longer than the input; every entry is the `name (slug)` label of a matching candidate, every matching candidate's label is present, and an empty filter keeps all candidates in order |
| ListSearch.MatchingItemsConcat | nodes/blue/blue.node.ts:735-744 | entries come out in the order the candidates came in |
| ListSearch.Resolve | nodes/blue/blue.node.ts:729-734 | a transport failure gives one `Error: <message or Unknown error>` entry; a non-empty errors list gives one `Error: GraphQL Error: <messages joined by ", ">` entry whatever else the reply holds; otherwise the candidates, a missing list being empty, are presented |
| ListSearch.SearchCompanies | nodes/blue/blue.node.ts:695-755 | the answer for the company listing request, with the error cases above and the matching company entries otherwise |
| ListSearch.SearchProjects | nodes/blue/blue.node.ts:757-850 | without a company the answer is the single "Please select a company first" entry; with one, it is the answer to that company's project request |
| ListSearch.SearchProjectsWithoutCompanySendsNothing | nodes/blue/blue.node.ts:768-775 | without a company the answer is the same whatever the transport would have done |
| ListSearch.SearchProjectsRequestScope | nodes/blue/blue.node.ts:780-815 | the project request names exactly that company, excludes archived projects and templates, sorts by position then name, asks for the first 50, and carries the company as its scope header |
| ListSearch.SortedCons | nodes/blue/blue.node.ts:938 | a list no later than everything in a sorted list stays sorted in front of it |
| ListSearch.Insert | nodes/blue/blue.node.ts:938 | inserting into a position-sorted list keeps it sorted and adds exactly that list |
| ListSearch.SortByPosition | nodes/blue/blue.node.ts:938 | the sort returns a position-ordered permutation of its input |
| ListSearch.SortByPositionKeepsSorted | nodes/blue/blue.node.ts:938 | input already in position order is returned unchanged |
| ListSearch.VisibleTodoLists | nodes/blue/blue.node.ts:931-938 | the shown lists are sorted by position, each is enabled and matches the filter, and together they are exactly the enabled matching lists of the input |
| ListSearch.TodoListItems | nodes/blue/blue.node.ts:930-942 | every entry is the `title (uid)` entry of an enabled list passing the filter, every such list has its entry, and the entries are those of a position-sorted permutation of exactly the enabled matching lists |
| ListSearch.SearchTodoLists | nodes/blue/blue.node.ts:852-953 | the company is checked first, then the project; with both, the answer is the one for the todo-list request that names the project and is scoped to the company |
| ListSearch.TodoListEntriesAreVisible | nodes/blue/blue.node.ts:930-944 | every entry of a successful answer is an enabled, matching list no later than any entry after it |
| Dispatch.ProcessItem | nodes/blue/blue.node.ts:631-688 | with continue-on-fail every item emits a record; an unknown operation emits or stops with "Unknown operation: name"; success emits the data; failures emit their message inline; without continue-on-fail a failed result stops with its message, or "Unknown error" for an empty one, and a description naming the operation, and a thrown value stops the batch, a node error as it is and anything else with its message or "Unknown error" and a description naming the Blue node |
| Dispatch.Catch | nodes/blue/blue.node.ts:672-688 | the catch block emits the error message inline when continuing; otherwise it passes node errors through unchanged and wraps anything else in a node error about the Blue node |
| Dispatch.Loop | nodes/blue/blue.node.ts:630-689 | the loop completes exactly when every remaining item emits, appending one record per item with its index; otherwise it aborts with the failure of the first item that stops |
| Dispatch.Execute | nodes/blue/blue.node.ts:626-692 | continue-on-fail always completes; a completed batch has one record per item in input order, paired with its index; the batch aborts exactly when some item stops, with the error of the first one |
| Dispatch.AbortsAtFirstStop | nodes/blue/blue.node.ts:664-669 | the batch raises exactly the error of its first stopping item, whatever later items would do |
| Dispatch.UnknownOperationAborts | nodes/blue/blue.node.ts:637-640 | without continue-on-fail, an unknown operation reached after successful items aborts the batch with "Unknown operation: name" |
| GetRecords.FilterClauses | nodes/blue/operations/GetRecordsOperation.ts:39-45 | the filter always has the company and `excludeArchivedProjects: true` and the completed switch; it has a project clause exactly when a project is given, and a search clause exactly when the term is non-empty, each with that value; no clause appears twice |
| GetRecords.BuildQuery | nodes/blue/operations/GetRecordsOperation.ts:9-48 | the query is refused with "Company ID is required" exactly when the company normalizes to ""; otherwise the filter, the sort `[duedAt_ASC, position_ASC]`, and limit and skip with defaults 50 and 0 |
| GetRecords.Execute | nodes/blue/operations/GetRecordsOperation.ts:7-128 | a missing company fails with "Company ID is required"; otherwise the delivered data succeeds and anything thrown fails with its message or "Unknown error occurred"; it succeeds exactly when a company is given and the request delivers |
| GetRecords.ExecuteWithoutCompanySendsNothing | nodes/blue/operations/GetRecordsOperation.ts:20-22 | without a company the result does not depend on the request helper |
| RecordsQueryText.QueryText | nodes/blue/operations/GetRecordsOperation.ts:36-48 | the document opens as a `ListRecordsAdvanced` todo query; what it carries is stated by the round trip below |
| RecordsQueryText.QueryTextRoundTrip | nodes/blue/operations/GetRecordsOperation.ts:36-48 | the query text of any query whose interpolated values are plain literal characters (no double quote, backslash or line break) reads back as that same query |
| RecordsQueryText.ReadQuotedRefuses | nodes/blue/operations/GetRecordsOperation.ts:40-44 | a quoted value that holds a backslash or a line break is not read back as a plain string literal |
| RecordsQueryText.ReadClauseText | nodes/blue/operations/GetRecordsOperation.ts:40-44 | each filter clause reads back from its text, whatever follows it |
| RecordsQueryText.ReadClausesText | nodes/blue/operations/GetRecordsOperation.ts:39-45 | the whole filter object reads back as its clause list, up to the closing brace |
| RecordsQueryText.ReadIdsText | nodes/blue/operations/GetRecordsOperation.ts:40-41 | a quoted identifier list reads back as the same identifiers |
| RecordsQueryText.ReadSortKeysText | nodes/blue/operations/GetRecordsOperation.ts:46 | the sort list reads back as the same sort keys |
| RecordsQueryText.ReadPagePartText | nodes/blue/operations/GetRecordsOperation.ts:47-48 | limit and skip read back as the same integers |
| Node.GetRecordsHandler | nodes/blue/blue.node.ts:631-651 | the table entry runs each item with that item's parameters, full-response option and request, and never throws; an item without a company gets "Company ID is required", and an item succeeds only when it has a company and its request delivers |
| Node.ContinuedBatchReportsMissingCompany | nodes/blue/blue.node.ts:658-663 | with continue-on-fail, a `getRecords` item without a company yields `{error: "Company ID is required"}` paired with its index |
| Node.GetRecordsStep | nodes/blue/blue.node.ts:651-669 | a successful `getRecords` item is emitted; one without a company stops with "Company ID is required" and a description naming the operation |
| Node.StoppedBatchRaisesMissingCompany | nodes/blue/blue.node.ts:664-669 | without continue-on-fail, the first `getRecords` item without a company aborts the batch with that error, after successful items |

## Left out

- HTTP, credentials and headers other than the company scope are not modelled. The endpoint, the token headers and `getCredentials` are outside the model, and the exchange is a function parameter.
- Dispatch.ProcessItem: a node error is modelled as the message and description the node hands to the constructor of `NodeApiError` or `NodeOperationError`. Those constructors belong to the host library, which is not part of this model. For `NodeApiError` the pair is passed as the error-response argument, so the message and description the host finally shows follow that library's own rules and are not promised here.
- Dispatch.ProcessItem: a failure while reading the operation name, the additional options or the credentials, before the table lookup, is not modelled. It would reach the same catch block as a handler that throws.
- `makeGraphQLRequest` and `handleGraphQLResponse` are not part of this model. Together they are the opaque `send` parameter of `GetRecords.Execute`, which delivers data or throws.
- The operation registry is an input map, and the other operations in it are not modelled.
- The node description, its UI properties and the display options are left out. Only the defaults of the `getRecords` parameters appear (`GetRecords.DefaultLimit`, `GetRecords.DefaultSkip`, an empty search, completed records hidden).
- ListSearch.Matches: `toLowerCase` is modelled for ASCII letters only. Other Unicode case mappings are left out.
- ListSearch.Candidate: `name`, `slug`, `title` and `uid` are always strings. A `null` field is not modelled. In the source, `.toLowerCase()` on it throws and the catch turns that into an `Error:` entry; in a label with an empty filter it would render as "null".
- ListSearch.SearchProjectsRequestScope: the resolvers' requests are structures. The source pastes the company and project identifiers into the query text unescaped, so the structure matches the text only for identifiers made of plain literal characters: no double quote, backslash or line break. Any of those changes or breaks the GraphQL string literal.
- GetRecords.Params: `limit` and `skip` are integers. The source takes any JavaScript number, so values such as `2.5` or `1e+21` would be rendered into the query as they are; those are not modelled.
- GetRecords.Execute: reading the node parameters is modelled as always succeeding, since `Params` is an input. In the source the reads sit inside the operation's `try`, so a failed read would give `Failed` with the thrown message, or "Unknown error occurred" for a non-`Error` value, and nothing would be sent.
- ListSearch.SearchProjects: reading the company and project parameters is modelled as always succeeding, since the `Locator`s are inputs; the same holds for `ListSearch.SearchTodoLists`. In the source the reads sit inside the resolver's `try`, so a failed read would give the single entry `Error: <message>` (or `Error: Unknown error`) instead of the "select … first" entry, and nothing would be sent.
- ListSearch.SortByPosition: positions are integers, not JavaScript floating-point numbers. The sort is an insertion sort that keeps equal positions in input order, as `Array.prototype.sort` does. Stability is proved only for input that is already sorted (`ListSearch.SortByPositionKeepsSorted`).
- Locators.Normalize: JavaScript's dynamic `typeof` check is a three-way datatype for the well-typed shapes. A `null` parameter is not modelled: the source's object check accepts it and then throws when reading `.value`. Other non-string, non-object values count as `Absent`.
- RecordsQueryText.QueryText: the query text keeps one space between tokens instead of the source's newlines and indentation. The fixed field selection is one opaque constant. The round trip needs values made of plain literal characters because the code does not escape them.
- OperationTypes.OpResult: a missing `error` on a failed result is modelled as the empty message.
- Asynchrony is not modelled, since every call is awaited in sequence.

=== FILE: dispatch.dfy ===
/** The node's `execute`: a walk over the input items in order. For each item
    it looks the chosen operation up in the operation table, runs it, and folds
    the result into an output record. When the host asks to continue on
    failure, a failure becomes an inline `{error}` record for that item;
    otherwise the first failure aborts the whole batch and no records are
    returned.

    The operation table is an input: a map from operation name to a handler
    that, given the item index, either returns an operation result or throws. */
module Dispatch {
  import opened OperationTypes

  /** What running one operation handler for one item gives. */
  datatype Attempt<D> = Returned(result: OpResult<D>) | Threw(thrown: Thrown)

  /** An operation handler, by item index. */
  type Handler<D> = nat -> Attempt<D>

  /** The `json` of an output record: the operation's data, or `{error}`. */
  datatype Json<D> = Data(data: D) | ErrorJson(error: string)

  /** One output record, with `pairedItem.item`. */
  datatype Record<D> = Record(json: Json<D>, pairedItem: nat)

  /** The batch either completes with its records or raises a node error. */
  datatype Outcome<D> = Completed(records: seq<Record<D>>) | Aborted(failure: NodeFailure)

  /** One item's contribution: a record body, or the error that ends the batch. */
  datatype Step<D> = Emit(json: Json<D>) | Stop(failure: NodeFailure)

  function UnknownOperation(operation: string): string {
    "Unknown operation: " + operation
  }

  /** The description of the node error raised for a failed result. */
  function OperationFailed(operation: string): string {
    "An error occurred while executing the " + operation + " operation"
  }

  /** The description of the node error that wraps any other thrown value. */
  const BlueNodeFailed := "An error occurred while executing the Blue node"

  /** The try/catch body of the loop for item `i`. An unknown name throws a
      node operation error; a failed result, when not continuing, throws a node
      API error whose message falls back to "Unknown error"; the catch block
      rethrows node errors as they are and wraps anything else. */
  function ProcessItem<D>(operation: string, handlers: map<string, Handler<D>>, i: nat, continueOnFail: bool): (step: Step<D>)
    ensures continueOnFail ==> step.Emit?
    ensures operation !in handlers ==>
      step == (if continueOnFail then Emit(ErrorJson(UnknownOperation(operation)))
               else Stop(NodeFailure(UnknownOperation(operation), "")))
    ensures operation in handlers && handlers[operation](i).Returned? && handlers[operation](i).result.Succeeded? ==>
      step == Emit(Data(handlers[operation](i).result.data))
    ensures continueOnFail && operation in handlers && handlers[operation](i).Returned? && handlers[operation](i).result.Failed? ==>
      step == Emit(ErrorJson(handlers[operation](i).result.error))
    ensures continueOnFail && operation in handlers && handlers[operation](i).Threw? ==>
      step == Emit(ErrorJson(handlers[operation](i).thrown.MessageOr("Unknown error occurred")))
    ensures !continueOnFail && operation in handlers && handlers[operation](i).Returned? && handlers[operation](i).result.Failed? ==>
      var error := handlers[operation](i).result.error;
      step == Stop(NodeFailure(if error == "" then "Unknown error" else error, OperationFailed(operation)))
    ensures !continueOnFail && operation in handlers && handlers[operation](i).Threw? ==>
      var t := handlers[operation](i).thrown;
      && step.Stop?
      && (t.NodeError? ==> step.failure == t.failure)
      && (!t.NodeError? ==> step.failure == NodeFailure(t.MessageOr("Unknown error"), BlueNodeFailed))
    ensures step.Stop? ==> step.failure.message != "" || (operation in handlers && handlers[operation](i).Threw?)
  {
    if operation !in handlers then
      Caught(NodeError(NodeFailure(UnknownOperation(operation), "")), continueOnFail)
    else
      match handlers[operation](i)
      case Returned(Succeeded(data)) => Emit(Data(data))
      case Returned(Failed(error)) =>
        if continueOnFail then Emit(ErrorJson(error))
        else
          var message := if error == "" then "Unknown error" else error;
          Stop(NodeFailure(message, OperationFailed(operation)))
      case Threw(t) => Caught(t, continueOnFail)
  }

  /** What the catch block of the loop does with a thrown value. */
  datatype Handling = ReportInline(message: string) | Raise(failure: NodeFailure)

  /** The catch block of the loop: an inline error message when continuing;
      otherwise node errors pass through unchanged and anything else is
      wrapped in a node error about the Blue node. */
  function Catch(t: Thrown, continueOnFail: bool): (h: Handling)
    ensures continueOnFail ==> h == ReportInline(t.MessageOr("Unknown error occurred"))
    ensures !continueOnFail ==> h.Raise?
    ensures !continueOnFail && t.NodeError? ==> h.failure == t.failure
    ensures !continueOnFail && !t.NodeError? ==>
      h.failure.description == BlueNodeFailed && h.failure.message == t.MessageOr("Unknown error")
  {
    if continueOnFail then ReportInline(t.MessageOr("Unknown error occurred"))
    else
      match t
      case NodeError(f) => Raise(f)
      case PlainError(message) => Raise(NodeFailure(message, BlueNodeFailed))
      case NonError => Raise(NodeFailure("Unknown error", BlueNodeFailed))
  }

  /** The step a caught value gives. */
  function Caught<D>(t: Thrown, continueOnFail: bool): Step<D> {
    match Catch(t, continueOnFail)
    case ReportInline(message) => Emit(ErrorJson(message))
    case Raise(failure) => Stop(failure)
  }

  /** The loop from item `i` on, with the records pushed so far. */
  function Loop<D>(
    operations: seq<string>, handlers: map<string, Handler<D>>, continueOnFail: bool,
    i: nat, returnData: seq<Record<D>>): (out: Outcome<D>)
    requires i <= |operations|
    ensures out.Completed? <==>
      forall k :: i <= k < |operations| ==> ProcessItem(operations[k], handlers, k, continueOnFail).Emit?
    ensures out.Completed? ==>
      && |out.records| == |returnData| + |operations| - i
      && out.records[..|returnData|] == returnData
      && forall k :: i <= k < |operations| ==>
           out.records[|returnData| + k - i] == Record(ProcessItem(operations[k], handlers, k, continueOnFail).json, k)
    ensures out.Aborted? ==>
      exists k :: i <= k < |operations|
        && ProcessItem(operations[k], handlers, k, continueOnFail) == Stop(out.failure)
        && forall j :: i <= j < k ==> ProcessItem(operations[j], handlers, j, continueOnFail).Emit?
    decreases |operations| - i
  {
    if i == |operations| then Completed(returnData)
    else
      match ProcessItem(operations[i], handlers, i, continueOnFail)
      case Stop(failure) => Aborted(failure)
      case Emit(json) => Loop(operations, handlers, continueOnFail, i + 1, returnData + [Record(json, i)])
  }

  /** `execute`: one record per item, in input order and paired with its
      index, unless some item stops the batch; then the batch raises the error
      of the first item that stopped it. */
  function Execute<D>(operations: seq<string>, handlers: map<string, Handler<D>>, continueOnFail: bool): (out: Outcome<D>)
    ensures continueOnFail ==> out.Completed?
    ensures out.Completed? ==>
      && |out.records| == |operations|
      && forall i :: 0 <= i < |operations| ==>
           && out.records[i].pairedItem == i
           && ProcessItem(operations[i], handlers, i, continueOnFail).Emit?
           && out.records[i].json == ProcessItem(operations[i], handlers, i, continueOnFail).json
    ensures out.Aborted? <==>
      exists k :: 0 <= k < |operations| && ProcessItem(operations[k], handlers, k, continueOnFail).Stop?
    ensures out.Aborted? ==>
      exists k :: 0 <= k < |operations|
        && ProcessItem(operations[k], handlers, k, continueOnFail) == Stop(out.failure)
        && forall j :: 0 <= j < k ==> ProcessItem(operations[j], handlers, j, continueOnFail).Emit?
  {
    var none: seq<Record<D>> := [];
    var out := Loop(operations, handlers, continueOnFail, 0, none);
    assert out.Completed? ==> forall i :: 0 <= i < |operations| ==>
      out.records[i] == Record(ProcessItem(operations[i], handlers, i, continueOnFail).json, i)
    by {
      if out.Completed? {
        forall i | 0 <= i < |operations|
          ensures out.records[i] == Record(ProcessItem(operations[i], handlers, i, continueOnFail).json, i)
        {
          assert |none| + i - 0 == i;
        }
      }
    }
    out
  }

  /** The batch raises exactly the error of its first stopping item, whatever
      the items after it would have done. */
  lemma AbortsAtFirstStop<D>(operations: seq<string>, handlers: map<string, Handler<D>>, continueOnFail: bool, k: int)
    requires 0 <= k < |operations|
    requires ProcessItem(operations[k], handlers, k, continueOnFail).Stop?
    requires forall j :: 0 <= j < k ==> ProcessItem(operations[j], handlers, j, continueOnFail).Emit?
    ensures Execute(operations, handlers, continueOnFail) == Aborted(ProcessItem(operations[k], handlers, k, continueOnFail).failure)
  {
    var out := Execute(operations, handlers, continueOnFail);
    var k' :| 0 <= k' < |operations|
      && ProcessItem(operations[k'], handlers, k', continueOnFail) == Stop(out.failure)
      && forall j :: 0 <= j < k' ==> ProcessItem(operations[j], handlers, j, continueOnFail).Emit?;
    assert ProcessItem(operations[k'], handlers, k', continueOnFail).Stop?;
    assert !(k' < k);
    assert !(k < k');
  }

  /** Without continue-on-fail, an item naming an operation the table does not
      have stops the batch there with "Unknown operation: <name>". */
  lemma UnknownOperationAborts<D>(operations: seq<string>, handlers: map<string, Handler<D>>, k: int)
    requires 0 <= k < |operations| && operations[k] !in handlers
    requires forall j :: 0 <= j < k ==> ProcessItem(operations[j], handlers, j, false).Emit?
    ensures Execute(operations, handlers, false) == Aborted(NodeFailure("Unknown operation: " + operations[k], ""))
  {
    AbortsAtFirstStop(operations, handlers, false, k);
  }
}

=== FILE: get_records.dfy ===
/** The `getRecords` operation: it reads a company, an optional project, a
    search term, a completed-records switch and pagination, builds a todo query
    whose filter object is assembled clause by clause, sends it scoped to the
    company, and turns whatever happens into an operation result.

    The query is a structured value here; its text is in `RecordsQueryText`. */
module GetRecords {
  import opened Values
  import opened Text
  import opened Locators
  import opened OperationTypes

  /** The node parameters the operation reads. A missing optional parameter is
      `None` and takes the operation's default. */
  datatype Params = Params(
    companyId: Locator,
    projectId: Locator,
    searchTerm: Option<string>,
    showCompleted: Option<bool>,
    limit: Option<int>,
    skip: Option<int>)

  const DefaultLimit := 50
  const DefaultSkip := 0

  /** One entry of the `filter:` object of the todo query. */
  datatype Clause =
    | CompanyIds(companies: seq<string>)
    | ProjectIds(projects: seq<string>)
    | ShowCompleted(show: bool)
    | ExcludeArchivedProjects(exclude: bool)
    | Search(term: string)

  datatype SortKey = DuedAtAsc | PositionAsc

  datatype Query = Query(filter: seq<Clause>, sort: seq<SortKey>, limit: int, skip: int)

  /** What is handed to the request helper: the query, the company-scope
      header, and whether the full response envelope is wanted. */
  datatype Exchange = Exchange(query: Query, companyHeader: string, fullResponse: bool)

  /** The request helper and the response handler together: the data they
      return, or what they throw. */
  datatype Reply<D> = Delivered(data: D) | Raised(thrown: Thrown)

  const CompanyRequired := "Company ID is required"

  predicate HasProjectClause(cs: seq<Clause>) {
    exists c :: c in cs && c.ProjectIds?
  }

  predicate HasSearchClause(cs: seq<Clause>) {
    exists c :: c in cs && c.Search?
  }

  // ---------------------------------------------------------------------------
  // Building the query

  /** The filter object: the company always, the project only when one is
      given, the completed switch, archived projects always excluded, and the
      search term only when it is not empty; no clause appears twice. */
  function FilterClauses(companyId: string, projectId: string, searchTerm: string, showCompleted: bool): (cs: seq<Clause>)
    ensures CompanyIds([companyId]) in cs
    ensures forall c :: c in cs && c.CompanyIds? ==> c.companies == [companyId]
    ensures HasProjectClause(cs) <==> projectId != ""
    ensures forall c :: c in cs && c.ProjectIds? ==> c.projects == [projectId]
    ensures ShowCompleted(showCompleted) in cs
    ensures forall c :: c in cs && c.ShowCompleted? ==> c.show == showCompleted
    ensures ExcludeArchivedProjects(true) in cs
    ensures forall c :: c in cs && c.ExcludeArchivedProjects? ==> c.exclude
    ensures HasSearchClause(cs) <==> searchTerm != ""
    ensures forall c :: c in cs && c.Search? ==> c.term == searchTerm
    ensures |cs| == 3 + (if projectId != "" then 1 else 0) + (if searchTerm != "" then 1 else 0)
  {
    var project := if projectId != "" then [ProjectIds([projectId])] else [];
    var search := if searchTerm != "" then [Search(searchTerm)] else [];
    var cs := [CompanyIds([companyId])] + project + [ShowCompleted(showCompleted), ExcludeArchivedProjects(true)] + search;
    assert projectId != "" ==> cs[1] == ProjectIds([projectId]);
    assert searchTerm != "" ==> cs[|cs| - 1] == Search(searchTerm);
    cs
  }

  /** Reads the parameters and builds the query. A company that normalizes to
      the empty identifier is refused before anything else happens. */
  function BuildQuery(p: Params): (r: Checked<Query>)
    ensures r.Refused? <==> Normalize(p.companyId) == ""
    ensures r.Refused? ==> r.reason == CompanyRequired
    ensures r.Accepted? ==>
      && r.value.filter == FilterClauses(Normalize(p.companyId), Normalize(p.projectId),
                                         p.searchTerm.OrElse(""), p.showCompleted.OrElse(false))
      && r.value.sort == [DuedAtAsc, PositionAsc]
      && (p.limit.None? ==> r.value.limit == 50) && (p.limit.Some? ==> r.value.limit == p.limit.value)
      && (p.skip.None? ==> r.value.skip == 0) && (p.skip.Some? ==> r.value.skip == p.skip.value)
  {
    var companyId := Normalize(p.companyId);
    if companyId == "" then Refused(CompanyRequired)
    else
      var projectId := Normalize(p.projectId);
      var filter := FilterClauses(companyId, projectId, p.searchTerm.OrElse(""), p.showCompleted.OrElse(false));
      Accepted(Query(filter, [DuedAtAsc, PositionAsc], p.limit.OrElse(DefaultLimit), p.skip.OrElse(DefaultSkip)))
  }

  /** `execute`: never throws. A missing company, a failed request or a failed
      response all become `{success: false, error}`; otherwise the handled
      response is the data. */
  function Execute<D>(p: Params, fullResponse: bool, send: Exchange -> Reply<D>): (r: OpResult<D>)
    ensures Normalize(p.companyId) == "" ==> r == Failed("Company ID is required")
    ensures Normalize(p.companyId) != "" ==>
      var reply := send(Exchange(BuildQuery(p).value, Normalize(p.companyId), fullResponse));
      && (reply.Delivered? ==> r == Succeeded(reply.data))
      && (reply.Raised? ==> r == Failed(reply.thrown.MessageOr("Unknown error occurred")))
    ensures r.Succeeded? <==>
      Normalize(p.companyId) != "" && send(Exchange(BuildQuery(p).value, Normalize(p.companyId), fullResponse)).Delivered?
  {
    match BuildQuery(p)
    case Refused(message) => Failed(message)
    case Accepted(query) =>
      match send(Exchange(query, Normalize(p.companyId), fullResponse))
      case Delivered(data) => Succeeded(data)
      case Raised(t) => Failed(t.MessageOr("Unknown error occurred"))
  }

  /** Without a company the result does not depend on the request helper: no
      request is made. */
  lemma ExecuteWithoutCompanySendsNothing<D>(p: Params, fullResponse: bool, s1: Exchange -> Reply<D>, s2: Exchange -> Reply<D>)
    requires Normalize(p.companyId) == ""
    ensures Execute(p, fullResponse, s1) == Execute(p, fullResponse, s2) == Failed(CompanyRequired)
  {
  }
}

=== FILE: list_search.dfy ===
/** The searchable-dropdown resolvers of the node: companies, projects of a
    company, and todo lists of a project. Each one checks its scope, sends one
    query, filters the candidates against the text the user typed, and maps the
    survivors to `{name, value}` dropdown entries. A resolver never fails: a
    missing scope gives a "select ... first" entry and any failure gives one
    `Error: ...` entry with an empty value.

    The HTTP exchange is a parameter: `transport` maps the request a resolver
    would send to the response it gets back. A resolver that does not consult
    `transport` makes no request. */
module ListSearch {
  import opened Values
  import opened Text
  import opened Locators
  import opened OperationTypes

  /** A company or a project as the listing queries return it. */
  datatype Candidate = Candidate(id: string, name: string, slug: string)

  datatype TodoList = TodoList(id: string, uid: string, title: string, position: int, isDisabled: bool)

  /** One dropdown entry: its label and the identifier it selects. */
  datatype ListItem = ListItem(name: string, value: string)

  /** The sort keys of the project listing query. The resolver keeps the
      order the server returns, so these decide the dropdown's order. */
  datatype ProjectOrder = ByPosition | ByName

  /** The filter of the project listing query. */
  datatype ProjectFilter = ProjectFilter(companyIds: seq<string>, archived: bool, isTemplate: bool)

  /** The query a resolver sends, as a structure: the values the source
      interpolates into its text, and the company-scope header
      (`X-Bloo-Company-ID`) where the resolver sets one. The structure and the
      text agree only for identifiers made of plain literal characters (no
      double quote, backslash or line break); the text itself is not modelled
      here. */
  datatype Request =
    | CompanyList
    | ProjectList(filter: ProjectFilter, sort: seq<ProjectOrder>, skip: int, take: int, companyHeader: string)
    | TodoLists(projectId: string, companyHeader: string)

  /** A parsed GraphQL envelope (an absent `errors` is the empty sequence, an
      absent candidate list is `None`), or a failure of the exchange itself. */
  datatype Response<T> =
    | Envelope(errors: seq<string>, items: Option<seq<T>>)
    | TransportFailure(thrown: Thrown)

  const CompanyFirst := ListItem("Please select a company first", "")
  const ProjectFirst := ListItem("Please select a project first", "")

  // ---------------------------------------------------------------------------
  // Filtering

  /** `s.filter(keep)` */
  function Filter<T(!new)>(keep: T -> bool, s: seq<T>): (r: seq<T>)
    ensures |r| <= |s|
    ensures forall x :: x in r <==> x in s && keep(x)
    decreases |s|
  {
    if |s| == 0 then []
    else (if keep(s[0]) then [s[0]] else []) + Filter(keep, s[1..])
  }

  /** Filtering works element by element, so it keeps the survivors in input
      order: filtering a concatenation concatenates the filtered parts. */
  lemma {:induction false} FilterConcat<T(!new)>(keep: T -> bool, a: seq<T>, b: seq<T>)
    ensures Filter(keep, a + b) == Filter(keep, a) + Filter(keep, b)
    decreases |a|
  {
    if |a| > 0 {
      assert (a + b)[1..] == a[1..] + b;
      FilterConcat(keep, a[1..], b);
    } else {
      assert a + b == b;
    }
  }

  /** When every element passes, filtering changes nothing. */
  lemma {:induction false} FilterKeepsAll<T(!new)>(keep: T -> bool, s: seq<T>)
    requires forall x :: x in s ==> keep(x)
    ensures Filter(keep, s) == s
    decreases |s|
  {
    if |s| > 0 {
      FilterKeepsAll(keep, s[1..]);
    }
  }

  /** Two filters in a row keep what passes both. */
  lemma {:induction false} FilterFilter<T(!new)>(first: T -> bool, second: T -> bool, both: T -> bool, s: seq<T>)
    requires forall x :: both(x) == (first(x) && second(x))
    ensures Filter(second, Filter(first, s)) == Filter(both, s)
    decreases |s|
  {
    if |s| > 0 {
      FilterFilter(first, second, both, s[1..]);
      if first(s[0]) {
        assert Filter(first, s) == [s[0]] + Filter(first, s[1..]);
        assert Filter(first, s)[1..] == Filter(first, s[1..]);
      } else {
        assert Filter(first, s) == [] + Filter(first, s[1..]);
        assert Filter(first, s) == Filter(first, s[1..]);
      }
    }
  }

  /** The search predicate of all three resolvers: an empty filter lets
      everything through; otherwise one of the two display fields must contain
      the filter, both lower-cased. */
  predicate Matches(filter: string, primary: string, secondary: string) {
    || filter == ""
    || Includes(LowerAscii(primary), LowerAscii(filter))
    || Includes(LowerAscii(secondary), LowerAscii(filter))
  }

  /** Matching, stated by offsets: the lower-cased filter occurs somewhere in
      one of the lower-cased fields. */
  lemma MatchesIffOccurs(filter: string, primary: string, secondary: string)
    ensures Matches(filter, primary, secondary) <==>
      || filter == ""
      || (exists i :: OccursAt(LowerAscii(primary), LowerAscii(filter), i))
      || (exists i :: OccursAt(LowerAscii(secondary), LowerAscii(filter), i))
  {
    IncludesIffOccurs(LowerAscii(primary), LowerAscii(filter));
    IncludesIffOccurs(LowerAscii(secondary), LowerAscii(filter));
  }

  /** Typing the filter in upper or lower case selects the same candidates. */
  lemma MatchesIgnoresFilterCase(filter: string, primary: string, secondary: string)
    ensures Matches(LowerAscii(filter), primary, secondary) == Matches(filter, primary, secondary)
  {
    LowerAsciiIdempotent(filter);
  }

  // ---------------------------------------------------------------------------
  // Companies and projects

  predicate CandidateMatches(filter: string, c: Candidate) {
    Matches(filter, c.name, c.slug)
  }

  /** The dropdown entry of a company or project: "name (slug)" selecting its id. */
  function CandidateItem(c: Candidate): ListItem {
    ListItem(c.name + " (" + c.slug + ")", c.id)
  }

  /** The dropdown entries of a candidate list, one per candidate, in order. */
  function Labels(cs: seq<Candidate>): (r: seq<ListItem>)
    ensures |r| == |cs| && forall k :: 0 <= k < |cs| ==> r[k] == CandidateItem(cs[k])
  {
    seq(|cs|, k requires 0 <= k < |cs| => CandidateItem(cs[k]))
  }

  lemma {:induction false} LabelsConcat(a: seq<Candidate>, b: seq<Candidate>)
    ensures Labels(a + b) == Labels(a) + Labels(b)
  {
    var r := Labels(a + b);
    assert forall k :: 0 <= k < |a| ==> r[k] == CandidateItem(a[k]);
    assert forall k :: |a| <= k < |r| ==> r[k] == CandidateItem(b[k - |a|]);
  }

  /** `item` is the dropdown entry of some candidate of `cs` that passes the
      filter. */
  ghost predicate EntryOfMatch(filter: string, cs: seq<Candidate>, item: ListItem) {
    exists c :: c in cs && CandidateMatches(filter, c) && item == CandidateItem(c)
  }

  lemma {:induction false} LabelsSound(kept: seq<Candidate>, cs: seq<Candidate>, filter: string)
    requires forall c :: c in kept ==> c in cs && CandidateMatches(filter, c)
    ensures forall k :: 0 <= k < |Labels(kept)| ==> EntryOfMatch(filter, cs, Labels(kept)[k])
  {
    forall k | 0 <= k < |Labels(kept)|
      ensures EntryOfMatch(filter, cs, Labels(kept)[k])
    {
      var c := kept[k];
      assert c in kept;
      assert c in cs && CandidateMatches(filter, c) && Labels(kept)[k] == CandidateItem(c);
    }
  }

  lemma {:induction false} LabelsComplete(cs: seq<Candidate>)
    ensures forall c :: c in cs ==> CandidateItem(c) in Labels(cs)
  {
    forall c | c in cs ensures CandidateItem(c) in Labels(cs) {
      var k :| 0 <= k < |cs| && cs[k] == c;
      assert Labels(cs)[k] == CandidateItem(c);
    }
  }

  /** The entries for the candidates that pass the filter, in input order. */
  function MatchingItems(cs: seq<Candidate>, filter: string): (r: seq<ListItem>)
    ensures |r| <= |cs|
    ensures forall k :: 0 <= k < |r| ==> EntryOfMatch(filter, cs, r[k])
    ensures forall c :: c in cs && CandidateMatches(filter, c) ==> CandidateItem(c) in r
    ensures filter == "" ==> |r| == |cs| && forall k :: 0 <= k < |cs| ==> r[k] == CandidateItem(cs[k])
  {
    var kept := Filter(c => CandidateMatches(filter, c), cs);
    var r := Labels(kept);
    assert forall c :: c in kept ==> c in cs && CandidateMatches(filter, c);
    LabelsSound(kept, cs, filter);
    LabelsComplete(kept);
    if filter == "" then
      FilterKeepsAll(c => CandidateMatches(filter, c), cs);
      r
    else
      r
  }

  /** Entries come out in the order the candidates came in. */
  lemma {:induction false} MatchingItemsConcat(a: seq<Candidate>, b: seq<Candidate>, filter: string)
    ensures MatchingItems(a + b, filter) == MatchingItems(a, filter) + MatchingItems(b, filter)
  {
    var keep := c => CandidateMatches(filter, c);
    FilterConcat(keep, a, b);
    LabelsConcat(Filter(keep, a), Filter(keep, b));
  }

  // ---------------------------------------------------------------------------
  // Failures

  /** `"GraphQL Error: " + errors.map(e => e.message).join(", ")` */
  function GraphQLErrorMessage(messages: seq<string>): string {
    "GraphQL Error: " + Join(messages, ", ")
  }

  /** The single entry the catch block of every resolver returns. */
  function ErrorItem(t: Thrown): ListItem {
    ListItem("Error: " + t.MessageOr("Unknown error"), "")
  }

  /** What a resolver answers for a response, given how it presents the
      candidate list of a successful one. */
  ghost predicate Answers<T>(resp: Response<T>, present: seq<T> -> seq<ListItem>, r: seq<ListItem>) {
    match resp
    case TransportFailure(t) =>
      r == [ListItem("Error: " + t.MessageOr("Unknown error"), "")]
    case Envelope(errors, items) =>
      if |errors| > 0 then
        r == [ListItem("Error: GraphQL Error: " + Join(errors, ", "), "")]
      else
        r == present(items.OrElse([]))
  }

  /** The part of every resolver after its request: a non-empty `errors`
      sequence is thrown as a GraphQL error whatever else the envelope holds, a
      missing list is the empty list, and the catch block turns anything thrown
      into a single error entry. */
  function Resolve<T>(resp: Response<T>, present: seq<T> -> seq<ListItem>): (r: seq<ListItem>)
    ensures Answers(resp, present, r)
  {
    match resp
    case TransportFailure(t) => [ErrorItem(t)]
    case Envelope(errors, items) =>
      if |errors| > 0 then
        var message := GraphQLErrorMessage(errors);
        assert "Error: " + message == "Error: GraphQL Error: " + Join(errors, ", ");
        [ErrorItem(PlainError(message))]
      else
        present(items.OrElse([]))
  }

  // ---------------------------------------------------------------------------
  // The resolvers

  /** `searchCompanies`: no scope, one company listing request. */
  function SearchCompanies(transport: Request -> Response<Candidate>, filter: string): (r: seq<ListItem>)
    ensures Answers(transport(CompanyList), cs => MatchingItems(cs, filter), r)
  {
    Resolve(transport(CompanyList), cs => MatchingItems(cs, filter))
  }

  /** The project listing request for a company: exactly that company, no
      archived projects, no templates, by position then name, the first 50,
      scoped to the company. */
  function ProjectsRequest(companyId: string): Request {
    ProjectList(ProjectFilter([companyId], false, false), [ByPosition, ByName], 0, 50, companyId)
  }

  /** `searchProjects`: needs a company; without one it answers with the
      "select a company" entry and sends nothing. */
  function SearchProjects(company: Locator, transport: Request -> Response<Candidate>, filter: string): (r: seq<ListItem>)
    ensures Normalize(company) == "" ==> r == [CompanyFirst]
    ensures Normalize(company) != "" ==>
      var resp := transport(ProjectsRequest(Normalize(company)));
      Answers(resp, cs => MatchingItems(cs, filter), r)
  {
    var companyId := Normalize(company);
    if companyId == "" then [CompanyFirst]
    else Resolve(transport(ProjectsRequest(companyId)), cs => MatchingItems(cs, filter))
  }

  /** Without a company, the answer does not depend on the transport at all:
      no request is made. */
  lemma SearchProjectsWithoutCompanySendsNothing(
    company: Locator, t1: Request -> Response<Candidate>, t2: Request -> Response<Candidate>, filter: string)
    requires Normalize(company) == ""
    ensures SearchProjects(company, t1, filter) == SearchProjects(company, t2, filter) == [CompanyFirst]
  {
  }

  /** With a company, the request sent is restricted to exactly that company,
      to non-archived, non-template projects, ordered by position then name,
      and carries the company as its scope. */
  lemma SearchProjectsRequestScope(company: Locator)
    requires Normalize(company) != ""
    ensures var req := ProjectsRequest(Normalize(company));
      && req.filter.companyIds == [Normalize(company)]
      && !req.filter.archived && !req.filter.isTemplate
      && req.companyHeader == Normalize(company)
      && req.sort == [ByPosition, ByName]
      && req.skip == 0 && req.take == 50
  {
  }

  // ---------------------------------------------------------------------------
  // Todo lists

  predicate ListMatches(filter: string, l: TodoList) {
    Matches(filter, l.title, l.uid)
  }

  predicate Enabled(l: TodoList) {
    !l.isDisabled
  }

  predicate SortedByPosition(s: seq<TodoList>) {
    forall i, j :: 0 <= i < j < |s| ==> s[i].position <= s[j].position
  }

  /** A list that starts no later than everything of a sorted list stays
      sorted in front of it. */
  lemma SortedCons(head: TodoList, tail: seq<TodoList>)
    requires SortedByPosition(tail)
    requires forall y :: y in tail ==> head.position <= y.position
    ensures SortedByPosition([head] + tail)
  {
    var s := [head] + tail;
    forall i, j | 0 <= i < j < |s| ensures s[i].position <= s[j].position {
      assert s[j] == tail[j - 1];
      if i > 0 {
        assert s[i] == tail[i - 1];
      }
    }
  }

  /** When `x` goes after the head of a sorted list, everything the tail
      becomes is no earlier than that head. */
  lemma {:induction false} InsertedAfterHead(x: TodoList, s: seq<TodoList>, rest: seq<TodoList>)
    requires |s| > 0 && SortedByPosition(s) && s[0].position < x.position
    requires multiset(rest) == multiset(s[1..]) + multiset{x}
    ensures forall y :: y in rest ==> s[0].position <= y.position
  {
    forall y | y in rest ensures s[0].position <= y.position {
      assert y in multiset(rest);
      if y != x {
        assert y in multiset(s[1..]);
        var j :| 0 <= j < |s[1..]| && s[1..][j] == y;
        assert s[j + 1] == y;
      }
    }
  }

  /** Inserts `x` before the first element whose position is not smaller. */
  function Insert(x: TodoList, s: seq<TodoList>): (r: seq<TodoList>)
    requires SortedByPosition(s)
    ensures SortedByPosition(r)
    ensures multiset(r) == multiset(s) + multiset{x}
    decreases |s|
  {
    if |s| == 0 || x.position <= s[0].position then
      SortedCons(x, s);
      [x] + s
    else
      var rest := Insert(x, s[1..]);
      assert s == [s[0]] + s[1..];
      InsertedAfterHead(x, s, rest);
      SortedCons(s[0], rest);
      [s[0]] + rest
  }

  /** `s.sort((a, b) => a.position - b.position)`: an insertion sort that keeps
      lists of equal position in their input order. */
  function SortByPosition(s: seq<TodoList>): (r: seq<TodoList>)
    ensures SortedByPosition(r)
    ensures multiset(r) == multiset(s)
    decreases |s|
  {
    if |s| == 0 then []
    else
      assert s == [s[0]] + s[1..];
      Insert(s[0], SortByPosition(s[1..]))
  }

  /** Lists already in position order come out of the sort as they went in,
      so lists of equal position keep their relative order there. */
  lemma {:induction false} SortByPositionKeepsSorted(s: seq<TodoList>)
    requires SortedByPosition(s)
    ensures SortByPosition(s) == s
    decreases |s|
  {
    if |s| > 0 {
      assert SortedByPosition(s[1..]);
      SortByPositionKeepsSorted(s[1..]);
      if |s| > 1 {
        assert s[0].position <= s[1].position;
      }
      assert [s[0]] + s[1..] == s;
    }
  }

  /** The lists a todo-list dropdown shows, before they become entries: those
      passing the search filter, then those not disabled, sorted by position. */
  function VisibleTodoLists(lists: seq<TodoList>, filter: string): (r: seq<TodoList>)
    ensures SortedByPosition(r)
    ensures forall l :: l in r ==> Enabled(l) && ListMatches(filter, l)
    ensures multiset(r) == multiset(Filter(l => Enabled(l) && ListMatches(filter, l), lists))
  {
    var matching := Filter(l => ListMatches(filter, l), lists);
    var kept := Filter(l => Enabled(l), matching);
    FilterFilter(l => ListMatches(filter, l), l => Enabled(l), l => Enabled(l) && ListMatches(filter, l), lists);
    var r := SortByPosition(kept);
    assert forall l :: l in r ==> Enabled(l) && ListMatches(filter, l) by {
      forall l | l in r ensures Enabled(l) && ListMatches(filter, l) {
        assert l in multiset(kept);
        assert l in kept;
        assert l in matching;
      }
    }
    r
  }

  /** The dropdown entry of a todo list: "title (uid)" selecting its id. */
  function TodoListItem(l: TodoList): ListItem {
    ListItem(l.title + " (" + l.uid + ")", l.id)
  }

  /** The entries of a todo-list dropdown: one `title (uid)` entry for every
      enabled list passing the filter and for no other list, in position
      order. */
  function TodoListItems(lists: seq<TodoList>, filter: string): (r: seq<ListItem>)
    ensures forall k :: 0 <= k < |r| ==>
      exists l :: l in lists && Enabled(l) && ListMatches(filter, l) && r[k] == TodoListItem(l)
    ensures forall l :: l in lists && Enabled(l) && ListMatches(filter, l) ==> TodoListItem(l) in r
    ensures exists v ::
      && SortedByPosition(v)
      && multiset(v) == multiset(Filter(l => Enabled(l) && ListMatches(filter, l), lists))
      && |v| == |r| && forall k :: 0 <= k < |r| ==> r[k] == TodoListItem(v[k])
  {
    var visible := VisibleTodoLists(lists, filter);
    var r := seq(|visible|, k requires 0 <= k < |visible| => TodoListItem(visible[k]));
    EntriesOfVisible(lists, filter, visible, r);
    r
  }

  lemma {:induction false} EntriesOfVisible(lists: seq<TodoList>, filter: string, visible: seq<TodoList>, r: seq<ListItem>)
    requires visible == VisibleTodoLists(lists, filter)
    requires |r| == |visible| && forall k :: 0 <= k < |r| ==> r[k] == TodoListItem(visible[k])
    ensures forall k :: 0 <= k < |r| ==>
      exists l :: l in lists && Enabled(l) && ListMatches(filter, l) && r[k] == TodoListItem(l)
    ensures forall l :: l in lists && Enabled(l) && ListMatches(filter, l) ==> TodoListItem(l) in r
  {
    var keep := l => Enabled(l) && ListMatches(filter, l);
    var kept := Filter(keep, lists);
    forall k | 0 <= k < |r|
      ensures exists l :: l in lists && Enabled(l) && ListMatches(filter, l) && r[k] == TodoListItem(l)
    {
      var l := visible[k];
      assert l in multiset(visible);
      assert l in kept;
    }
    forall l | l in lists && Enabled(l) && ListMatches(filter, l)
      ensures TodoListItem(l) in r
    {
      assert keep(l);
      assert l in kept;
      assert l in multiset(visible);
      var k :| 0 <= k < |visible| && visible[k] == l;
      assert r[k] == TodoListItem(l);
    }
  }

  /** `searchTodoLists`: needs a company and a project, checked in that order;
      the todo-list request names the project and is scoped to the company. */
  function SearchTodoLists(
    company: Locator, project: Locator, transport: Request -> Response<TodoList>, filter: string): (r: seq<ListItem>)
    ensures Normalize(company) == "" ==> r == [CompanyFirst]
    ensures Normalize(company) != "" && Normalize(project) == "" ==> r == [ProjectFirst]
    ensures Normalize(company) != "" && Normalize(project) != "" ==>
      var resp := transport(TodoLists(Normalize(project), Normalize(company)));
      Answers(resp, ls => TodoListItems(ls, filter), r)
  {
    var companyId := Normalize(company);
    var projectId := Normalize(project);
    if companyId == "" then [CompanyFirst]
    else if projectId == "" then [ProjectFirst]
    else Resolve(transport(TodoLists(projectId, companyId)), ls => TodoListItems(ls, filter))
  }

  /** Every entry of a successful todo-list answer is a visible list: enabled,
      passing the filter, and no later entry has a smaller position. */
  lemma TodoListEntriesAreVisible(lists: seq<TodoList>, filter: string, k: int)
    requires 0 <= k < |TodoListItems(lists, filter)|
    ensures var v := VisibleTodoLists(lists, filter);
      && TodoListItems(lists, filter)[k] == TodoListItem(v[k])
      && !v[k].isDisabled
      && ListMatches(filter, v[k])
      && (forall j :: k < j < |v| ==> v[k].position <= v[j].position)
  {
    var v := VisibleTodoLists(lists, filter);
    assert v[k] in v;
  }
}

=== FILE: locators.dfy ===
/** Resource-locator parameters. A company, project or todo-list parameter
    reaches the node either as a plain identifier string, as a `{mode, value}`
    object chosen in a searchable dropdown, or not at all. Every use site first
    reduces it to a bare identifier, and that reduction never fails: an unusable
    locator becomes the empty identifier and the caller decides what that means. */
module Locators {

  /** How the identifier was entered in the host's UI. */
  datatype Mode = List | Id

  datatype Locator =
    | Str(text: string)
    | Obj(mode: Mode, value: string)
    | Absent

  /** The bare identifier a locator stands for. An object contributes its
      `value` only when that value is truthy (non-empty); a string is taken
      as it is; anything else yields "". */
  function Normalize(loc: Locator): (id: string)
    ensures loc.Obj? && loc.value != "" ==> id == loc.value
    ensures loc.Str? ==> id == loc.text
    ensures id == "" <==> loc.Absent? || (loc.Obj? && loc.value == "") || loc == Str("")
  {
    if loc.Obj? && loc.value != "" then loc.value
    else if loc.Str? then loc.text
    else ""
  }

  /** Choosing an identifier from the dropdown and typing it in give the same
      identifier, whatever the mode. */
  lemma NormalizeIgnoresShape(mode: Mode, id: string)
    ensures Normalize(Obj(mode, id)) == Normalize(Str(id))
  {
  }
}

=== FILE: node.dfy ===
/** The `getRecords` operation as an entry of the node's operation table, and
    what the batch loop makes of it. The per-item parameters, each item's
    full-response switch (from its additional options) and each item's
    request exchange are inputs, so one item's request can fail while the
    next one's delivers. */
module Node {
  import opened Locators
  import opened OperationTypes
  import opened GetRecords
  import opened Dispatch

  const GetRecordsName := "getRecords"

  /** The table entry: for item `i`, the operation run on that item's
      parameters, full-response switch and exchange. The operation catches everything itself, so the handler
      always returns. */
  function GetRecordsHandler<D>(params: nat -> Params, fullResponse: nat -> bool, send: nat -> Exchange -> Reply<D>): (h: Handler<D>)
    ensures forall i: nat :: h(i).Returned?
    ensures forall i: nat :: Normalize(params(i).companyId) == "" ==> h(i) == Returned(Failed(CompanyRequired))
    ensures forall i: nat :: h(i).Returned? && h(i).result.Succeeded? ==>
      Normalize(params(i).companyId) != "" && send(i)(Exchange(BuildQuery(params(i)).value, Normalize(params(i).companyId), fullResponse(i))).Delivered?
  {
    (i: nat) => Returned(GetRecords.Execute(params(i), fullResponse(i), send(i)))
  }

  /** With continue-on-fail, every item of a getRecords batch yields a record;
      an item without a company yields `{error: "Company ID is required"}`
      paired with its index, and the records of the other items are whatever
      the operation delivered or the message it failed with. */
  lemma ContinuedBatchReportsMissingCompany<D>(
    operations: seq<string>, params: nat -> Params, fullResponse: nat -> bool, send: nat -> Exchange -> Reply<D>, k: nat)
    requires k < |operations| && operations[k] == GetRecordsName
    requires Normalize(params(k).companyId) == ""
    ensures var out := Dispatch.Execute(operations, map[GetRecordsName := GetRecordsHandler(params, fullResponse, send)], true);
      && out.Completed?
      && out.records[k] == Record(ErrorJson(CompanyRequired), k)
  {
    var handlers := map[GetRecordsName := GetRecordsHandler(params, fullResponse, send)];
    assert handlers[operations[k]](k) == Returned(Failed(CompanyRequired));
  }

  /** How the loop treats one getRecords item when not continuing on
      failure: a success is emitted, and a missing company stops the batch
      with a node error naming the operation. */
  lemma GetRecordsStep<D>(params: nat -> Params, fullResponse: nat -> bool, send: nat -> Exchange -> Reply<D>, j: nat)
    ensures var step := ProcessItem(GetRecordsName, map[GetRecordsName := GetRecordsHandler(params, fullResponse, send)], j, false);
      && (GetRecords.Execute(params(j), fullResponse(j), send(j)).Succeeded? ==> step.Emit?)
      && (Normalize(params(j).companyId) == "" ==>
            step == Stop(NodeFailure(CompanyRequired, OperationFailed(GetRecordsName))))
  {
    var handlers := map[GetRecordsName := GetRecordsHandler(params, fullResponse, send)];
    assert handlers[GetRecordsName](j) == Returned(GetRecords.Execute(params(j), fullResponse(j), send(j)));
  }

  /** Without continue-on-fail, the first item without a company stops a
      getRecords batch whose earlier items all succeeded, and the node raises
      "Company ID is required" naming the operation. */
  lemma StoppedBatchRaisesMissingCompany<D>(
    params: nat -> Params, fullResponse: nat -> bool, send: nat -> Exchange -> Reply<D>, n: nat, k: nat)
    requires k < n
    requires Normalize(params(k).companyId) == ""
    requires forall j :: 0 <= j < k ==> GetRecords.Execute(params(j), fullResponse(j), send(j)).Succeeded?
    ensures Dispatch.Execute(seq(n, _ => GetRecordsName), map[GetRecordsName := GetRecordsHandler(params, fullResponse, send)], false)
         == Aborted(NodeFailure(CompanyRequired, OperationFailed(GetRecordsName)))
  {
    var operations := seq(n, _ => GetRecordsName);
    var handlers := map[GetRecordsName := GetRecordsHandler(params, fullResponse, send)];
    forall j | 0 <= j < k
      ensures ProcessItem(operations[j], handlers, j, false).Emit?
    {
      GetRecordsStep(params, fullResponse, send, j);
    }
    GetRecordsStep(params, fullResponse, send, k);
    AbortsAtFirstStop(operations, handlers, false, k);
  }
}

=== FILE: operation_types.dfy ===
/** The values that cross an operation's boundary: what a failing step can
    throw, and what an operation hands back to the per-item loop. */
module OperationTypes {

  /** A structured node error (`NodeApiError` / `NodeOperationError`): the
      message and description the node hands to the node error's constructor. */
  datatype NodeFailure = NodeFailure(message: string, description: string)

  /** What a JavaScript `throw` can deliver to a `catch` block. The catch blocks
      of the connector distinguish three shapes: a node error (rethrown as it is),
      any other `Error` instance (only its message is used), and a thrown value
      that is not an `Error` at all (replaced by a fixed default message). */
  datatype Thrown =
    | NodeError(failure: NodeFailure)
    | PlainError(message: string)
    | NonError
  {
    /** `error instanceof Error ? error.message : fallback` */
    function MessageOr(fallback: string): (m: string)
      ensures NonError? ==> m == fallback
      ensures PlainError? ==> m == message
      ensures NodeError? ==> m == failure.message
    {
      match this
      case NodeError(f) => f.message
      case PlainError(msg) => msg
      case NonError => fallback
    }
  }

  /** An operation's result: `{success: true, data}` or `{success: false, error}`.
      A missing `error` is modelled as the empty message. */
  datatype OpResult<+D> = Succeeded(data: D) | Failed(error: string)
}

=== FILE: records_query.dfy ===
/** The text of the `getRecords` query, and a reader for it.

    The operation interpolates the parameter values into the query text as they
    are, with no escaping. The reader below recovers the structured query from
    the text; reading back what was written gives the same query whenever
    every interpolated value is a plain literal: no double quote, backslash or
    line break. A double quote can close its string literal early and change
    the shape of the filter; a backslash starts an escape and a line break
    ends the literal, so neither reads back as the character written.

    Whitespace is not modelled: the clauses of the filter object are one space
    apart, and the fixed field selection is an opaque constant. */
module RecordsQueryText {
  import opened Values
  import opened Text
  import opened GetRecords

  // ---------------------------------------------------------------------------
  // Writing

  /** `xs` rendered one by one and joined with `sep`. */
  function ListText<T>(render: T -> string, xs: seq<T>, sep: string): string {
    Join(seq(|xs|, i requires 0 <= i < |xs| => render(xs[i])), sep)
  }

  lemma {:induction false} ListTextOne<T>(render: T -> string, xs: seq<T>, sep: string)
    requires |xs| == 1
    ensures ListText(render, xs, sep) == render(xs[0])
  {
  }

  lemma {:induction false} ListTextCons<T>(render: T -> string, xs: seq<T>, sep: string)
    requires |xs| >= 2
    ensures ListText(render, xs, sep) == render(xs[0]) + sep + ListText(render, xs[1..], sep)
  {
    var parts := seq(|xs|, i requires 0 <= i < |xs| => render(xs[i]));
    assert parts[1..] == seq(|xs[1..]|, i requires 0 <= i < |xs[1..]| => render(xs[1..][i]));
  }

  function Quote(v: string): string {
    "\"" + v + "\""
  }

  /** A character the operation can put between the quotes of a GraphQL
      string literal and have it read as itself: not the closing quote, not
      the backslash that starts an escape, and not a line terminator, which a
      string literal may not hold. */
  predicate LiteralChar(c: char) {
    c != '"' && c != '\\' && c != '\n' && c != '\r'
  }

  /** A value that reads back as itself once interpolated between quotes. */
  predicate PlainLiteral(v: string) {
    forall i :: 0 <= i < |v| ==> LiteralChar(v[i])
  }

  function BoolText(b: bool): string {
    if b then "true" else "false"
  }

  const CompanyKey := "companyIds: ["
  const ProjectKey := "projectIds: ["
  const ShowCompletedKey := "showCompleted: "
  const ExcludeArchivedKey := "excludeArchivedProjects: "
  const SearchKey := "search: "

  function IdsText(ids: seq<string>): string {
    ListText(Quote, ids, ", ") + "]"
  }

  function ClauseText(c: Clause): string {
    match c
    case CompanyIds(ids) => CompanyKey + IdsText(ids)
    case ProjectIds(ids) => ProjectKey + IdsText(ids)
    case ShowCompleted(b) => ShowCompletedKey + BoolText(b)
    case ExcludeArchivedProjects(b) => ExcludeArchivedKey + BoolText(b)
    case Search(t) => SearchKey + Quote(t)
  }

  function SortKeyText(k: SortKey): string {
    match k
    case DuedAtAsc => "duedAt_ASC"
    case PositionAsc => "position_ASC"
  }

  /** The fixed selection of record fields and page information. */
  const Selection := "{ items { id uid position title text html startedAt duedAt timezone color cover done archived createdAt updatedAt commentCount checklistCount checklistCompletedCount isRepeating todoList { id title } users { id username email } tags { id title color } customFields { id name type value text number latitude longitude currency } createdBy { id username } } pageInfo { totalPages totalItems page perPage hasNextPage hasPreviousPage } }"

  const QueryHead := "query ListRecordsAdvanced { todoQueries { todos(filter: { "
  const QueryEnd := ") " + Selection + " } }"

  /** The document the operation sends: a `ListRecordsAdvanced` todo query
      closed by the fixed field selection. `QueryTextRoundTrip` shows that it
      carries exactly the query's clauses, sort keys and pagination. */
  function QueryText(q: Query): (r: string)
    ensures StartsWith(r, QueryHead)
  {
    var rest := ListText(ClauseText, q.filter, " ") + (" } sort: [" + (ListText(SortKeyText, q.sort, ", ") + ("]"
      + (" limit: " + (IntText(q.limit) + (" skip: " + (IntText(q.skip) + QueryEnd)))))));
    StartsWithText(QueryHead, rest);
    QueryHead + rest
  }

  // ---------------------------------------------------------------------------
  // Reading

  /** Drops `prefix` from the front of `s`. */
  function Expect(prefix: string, s: string): (r: Option<string>)
    ensures r.Some? ==> |r.value| == |s| - |prefix|
  {
    if StartsWith(s, prefix) then Some(s[|prefix|..]) else None
  }

  lemma {:induction false} ExpectText(prefix: string, rest: string)
    ensures Expect(prefix, prefix + rest) == Some(rest)
  {
    assert (prefix + rest)[..|prefix|] == prefix;
    assert (prefix + rest)[|prefix|..] == rest;
  }

  /** Splits `s` at its first double quote, dropping the quote. An escape or
      a line terminator before that quote is outside what the operation writes
      and is refused. */
  function ReadUntilQuote(s: string): (r: Option<(string, string)>)
    ensures r.Some? ==> |r.value.1| < |s|
    ensures r.Some? ==> PlainLiteral(r.value.0)
    decreases |s|
  {
    if |s| == 0 then None
    else if s[0] == '"' then Some(("", s[1..]))
    else if !LiteralChar(s[0]) then None
    else
      match ReadUntilQuote(s[1..])
      case None => None
      case Some((v, rest)) => Some(([s[0]] + v, rest))
  }

  lemma {:induction false} ReadUntilQuoteText(v: string, rest: string)
    requires PlainLiteral(v)
    ensures ReadUntilQuote(v + ("\"" + rest)) == Some((v, rest))
    decreases |v|
  {
    var s := v + ("\"" + rest);
    if |v| == 0 {
      assert s == "\"" + rest;
      assert s[1..] == rest;
    } else {
      assert s[0] == v[0];
      assert s[1..] == v[1..] + ("\"" + rest);
      assert LiteralChar(v[0]);
      assert PlainLiteral(v[1..]) by {
        forall i | 0 <= i < |v[1..]| ensures LiteralChar(v[1..][i]) {
          assert v[1..][i] == v[i + 1];
        }
      }
      ReadUntilQuoteText(v[1..], rest);
      assert [v[0]] + v[1..] == v;
    }
  }

  /** A string literal as the operation writes one: no escapes. */
  function ReadQuoted(s: string): (r: Option<(string, string)>)
    ensures r.Some? ==> |r.value.1| < |s|
  {
    match Expect("\"", s)
    case None => None
    case Some(after) => ReadUntilQuote(after)
  }

  lemma {:induction false} ReadQuotedText(v: string, rest: string)
    requires PlainLiteral(v)
    ensures ReadQuoted(Quote(v) + rest) == Some((v, rest))
  {
    assert Quote(v) + rest == "\"" + (v + ("\"" + rest));
    ExpectText("\"", v + ("\"" + rest));
    ReadUntilQuoteText(v, rest);
  }

  lemma {:induction false} ReadUntilQuoteRefuses(v: string, rest: string)
    requires '"' !in v && !PlainLiteral(v)
    ensures ReadUntilQuote(v + ("\"" + rest)) == None
    decreases |v|
  {
    var s := v + ("\"" + rest);
    assert s[0] == v[0];
    if LiteralChar(v[0]) {
      assert s[1..] == v[1..] + ("\"" + rest);
      assert '"' !in v[1..] by {
        forall c | c in v[1..] ensures c in v {
        }
      }
      assert !PlainLiteral(v[1..]) by {
        var i :| 0 <= i < |v| && !LiteralChar(v[i]);
        assert i > 0;
        assert v[1..][i - 1] == v[i];
      }
      ReadUntilQuoteRefuses(v[1..], rest);
    }
  }

  /** A value holding no double quote but an escape or a line break is not
      read back: the text the operation writes for it is not the literal of
      that value. */
  lemma {:induction false} ReadQuotedRefuses(v: string, rest: string)
    requires '"' !in v && !PlainLiteral(v)
    ensures ReadQuoted(Quote(v) + rest) == None
  {
    assert Quote(v) + rest == "\"" + (v + ("\"" + rest));
    ExpectText("\"", v + ("\"" + rest));
    ReadUntilQuoteRefuses(v, rest);
  }

  /** Reads the identifiers of a list whose `[` is already read, through the
      closing `]`. */
  function ReadIds(s: string): (r: Option<(seq<string>, string)>)
    ensures r.Some? ==> |r.value.1| < |s|
  {
    if StartsWith(s, "]") then Some(([], s[1..])) else ReadIdsFrom(s)
  }

  function ReadIdsFrom(s: string): (r: Option<(seq<string>, string)>)
    ensures r.Some? ==> |r.value.1| < |s|
    decreases |s|
  {
    match ReadQuoted(s)
    case None => None
    case Some((id, rest)) =>
      if StartsWith(rest, "]") then Some(([id], rest[1..]))
      else if StartsWith(rest, ", ") then
        match ReadIdsFrom(rest[2..])
        case None => None
        case Some((ids, after)) => Some(([id] + ids, after))
      else None
  }

  predicate AllPlainLiterals(ids: seq<string>) {
    forall i :: 0 <= i < |ids| ==> PlainLiteral(ids[i])
  }

  /** One identifier followed by `, ` and more identifiers. */
  lemma {:induction false} ReadIdsFromCons(s: string, id: string, tail: string, ids: seq<string>, rest: string)
    requires ReadQuoted(s) == Some((id, ", " + tail))
    requires ReadIdsFrom(tail) == Some((ids, rest))
    ensures ReadIdsFrom(s) == Some(([id] + ids, rest))
  {
    assert (", " + tail)[0] == ',';
    StartsWithText(", ", tail);
  }

  lemma {:induction false} ReadIdsFromText(ids: seq<string>, rest: string)
    requires |ids| > 0 && AllPlainLiterals(ids)
    ensures ReadIdsFrom(ListText(Quote, ids, ", ") + ("]" + rest)) == Some((ids, rest))
    decreases |ids|
  {
    var s := ListText(Quote, ids, ", ") + ("]" + rest);
    if |ids| == 1 {
      ListTextOne(Quote, ids, ", ");
      ReadQuotedText(ids[0], "]" + rest);
      assert StartsWith("]" + rest, "]");
      assert ("]" + rest)[1..] == rest;
      assert [ids[0]] == ids;
    } else {
      ListTextCons(Quote, ids, ", ");
      var tail := ListText(Quote, ids[1..], ", ") + ("]" + rest);
      assert s == Quote(ids[0]) + (", " + tail);
      ReadQuotedText(ids[0], ", " + tail);
      ReadIdsFromText(ids[1..], rest);
      ReadIdsFromCons(s, ids[0], tail, ids[1..], rest);
      assert [ids[0]] + ids[1..] == ids;
    }
  }

  lemma {:induction false} ReadIdsText(ids: seq<string>, rest: string)
    requires AllPlainLiterals(ids)
    ensures ReadIds(IdsText(ids) + rest) == Some((ids, rest))
  {
    var s := IdsText(ids) + rest;
    assert s == ListText(Quote, ids, ", ") + ("]" + rest);
    if |ids| == 0 {
      assert s == "]" + rest;
      assert s[1..] == rest;
    } else {
      ReadIdsFromText(ids, rest);
      assert !StartsWith(s, "]") by {
        if |ids| == 1 {
          ListTextOne(Quote, ids, ", ");
        } else {
          ListTextCons(Quote, ids, ", ");
        }
        assert s[0] == '"';
      }
    }
  }

  function ReadSortKey(s: string): (r: Option<(SortKey, string)>)
    ensures r.Some? ==> |r.value.1| < |s|
  {
    if StartsWith(s, "duedAt_ASC") then Some((DuedAtAsc, s[10..]))
    else if StartsWith(s, "position_ASC") then Some((PositionAsc, s[12..]))
    else None
  }

  lemma {:induction false} ReadSortKeyText(k: SortKey, rest: string)
    ensures ReadSortKey(SortKeyText(k) + rest) == Some((k, rest))
  {
    var s := SortKeyText(k) + rest;
    ExpectText(SortKeyText(k), rest);
    if k == PositionAsc {
      assert s[0] == 'p';
    }
  }

  /** Reads the keys of a sort list whose `[` is already read, through the
      closing `]`. */
  function ReadSortKeys(s: string): (r: Option<(seq<SortKey>, string)>)
    ensures r.Some? ==> |r.value.1| < |s|
  {
    if StartsWith(s, "]") then Some(([], s[1..])) else ReadSortKeysFrom(s)
  }

  function ReadSortKeysFrom(s: string): (r: Option<(seq<SortKey>, string)>)
    ensures r.Some? ==> |r.value.1| < |s|
    decreases |s|
  {
    match ReadSortKey(s)
    case None => None
    case Some((k, rest)) =>
      if StartsWith(rest, "]") then Some(([k], rest[1..]))
      else if StartsWith(rest, ", ") then
        match ReadSortKeysFrom(rest[2..])
        case None => None
        case Some((ks, after)) => Some(([k] + ks, after))
      else None
  }

  /** One key followed by `, ` and more keys. */
  lemma {:induction false} ReadSortKeysFromCons(s: string, k: SortKey, tail: string, ks: seq<SortKey>, rest: string)
    requires ReadSortKey(s) == Some((k, ", " + tail))
    requires ReadSortKeysFrom(tail) == Some((ks, rest))
    ensures ReadSortKeysFrom(s) == Some(([k] + ks, rest))
  {
    assert (", " + tail)[0] == ',';
    StartsWithText(", ", tail);
  }

  lemma {:induction false} ReadSortKeysFromText(ks: seq<SortKey>, rest: string)
    requires |ks| > 0
    ensures ReadSortKeysFrom(ListText(SortKeyText, ks, ", ") + ("]" + rest)) == Some((ks, rest))
    decreases |ks|
  {
    var s := ListText(SortKeyText, ks, ", ") + ("]" + rest);
    if |ks| == 1 {
      ListTextOne(SortKeyText, ks, ", ");
      ReadSortKeyText(ks[0], "]" + rest);
      assert StartsWith("]" + rest, "]");
      assert ("]" + rest)[1..] == rest;
      assert [ks[0]] == ks;
    } else {
      ListTextCons(SortKeyText, ks, ", ");
      var tail := ListText(SortKeyText, ks[1..], ", ") + ("]" + rest);
      assert s == SortKeyText(ks[0]) + (", " + tail);
      ReadSortKeyText(ks[0], ", " + tail);
      ReadSortKeysFromText(ks[1..], rest);
      ReadSortKeysFromCons(s, ks[0], tail, ks[1..], rest);
      assert [ks[0]] + ks[1..] == ks;
    }
  }

  lemma {:induction false} ReadSortKeysText(ks: seq<SortKey>, rest: string)
    ensures ReadSortKeys(ListText(SortKeyText, ks, ", ") + ("]" + rest)) == Some((ks, rest))
  {
    var s := ListText(SortKeyText, ks, ", ") + ("]" + rest);
    if |ks| == 0 {
      assert s == "]" + rest;
      assert s[1..] == rest;
    } else {
      ReadSortKeysFromText(ks, rest);
      assert !StartsWith(s, "]") by {
        if |ks| == 1 {
          ListTextOne(SortKeyText, ks, ", ");
        } else {
          ListTextCons(SortKeyText, ks, ", ");
        }
        assert s[0] == SortKeyText(ks[0])[0];
      }
    }
  }

  function ReadBool(s: string): (r: Option<(bool, string)>)
    ensures r.Some? ==> |r.value.1| < |s|
  {
    if StartsWith(s, "true") then Some((true, s[4..]))
    else if StartsWith(s, "false") then Some((false, s[5..]))
    else None
  }

  lemma {:induction false} ReadBoolText(b: bool, rest: string)
    ensures ReadBool(BoolText(b) + rest) == Some((b, rest))
  {
    ExpectText(BoolText(b), rest);
    if !b {
      assert (BoolText(b) + rest)[0] == 'f';
    }
  }

  /** Reads one clause of the filter object from the front of `s`. */
  function ReadClause(s: string): (r: Option<(Clause, string)>)
    ensures r.Some? ==> |r.value.1| < |s|
  {
    if StartsWith(s, CompanyKey) then
      match ReadIds(s[|CompanyKey|..])
      case None => None
      case Some((ids, rest)) => Some((CompanyIds(ids), rest))
    else if StartsWith(s, ProjectKey) then
      match ReadIds(s[|ProjectKey|..])
      case None => None
      case Some((ids, rest)) => Some((ProjectIds(ids), rest))
    else if StartsWith(s, ShowCompletedKey) then
      match ReadBool(s[|ShowCompletedKey|..])
      case None => None
      case Some((b, rest)) => Some((ShowCompleted(b), rest))
    else if StartsWith(s, ExcludeArchivedKey) then
      match ReadBool(s[|ExcludeArchivedKey|..])
      case None => None
      case Some((b, rest)) => Some((ExcludeArchivedProjects(b), rest))
    else if StartsWith(s, SearchKey) then
      match ReadQuoted(s[|SearchKey|..])
      case None => None
      case Some((t, rest)) => Some((Search(t), rest))
    else None
  }

  /** The values a clause interpolates are plain literals: no double quote,
      backslash or line break. */
  predicate ClausePlain(c: Clause) {
    match c
    case CompanyIds(ids) => AllPlainLiterals(ids)
    case ProjectIds(ids) => AllPlainLiterals(ids)
    case Search(t) => PlainLiteral(t)
    case _ => true
  }

  /** A clause text never starts with a space or a closing brace. */
  lemma ClauseTextStart(c: Clause)
    ensures |ClauseText(c)| > 0
    ensures ClauseText(c)[0] != ' ' && ClauseText(c)[0] != '}'
  {
  }

  /** The text of a non-empty clause list starts the way its first clause does. */
  lemma {:induction false} ClausesTextStart(cs: seq<Clause>, more: string)
    requires |cs| > 0
    ensures |ListText(ClauseText, cs, " ") + more| > 0
    ensures (ListText(ClauseText, cs, " ") + more)[0] == ClauseText(cs[0])[0]
  {
    ClauseTextStart(cs[0]);
    if |cs| == 1 {
      ListTextOne(ClauseText, cs, " ");
    } else {
      ListTextCons(ClauseText, cs, " ");
    }
  }

  lemma {:induction false} StartsWithText(prefix: string, rest: string)
    ensures StartsWith(prefix + rest, prefix)
    ensures (prefix + rest)[|prefix|..] == rest
  {
    ExpectText(prefix, rest);
  }

  lemma {:induction false} DiffersAt(s: string, prefix: string, i: nat)
    requires i < |s| && i < |prefix| && s[i] != prefix[i]
    ensures !StartsWith(s, prefix)
  {
    if |prefix| <= |s| {
      assert s[..|prefix|][i] == s[i];
    }
  }

  lemma {:induction false} ReadClauseText(c: Clause, rest: string)
    requires ClausePlain(c)
    ensures ReadClause(ClauseText(c) + rest) == Some((c, rest))
  {
    var s := ClauseText(c) + rest;
    match c
    case CompanyIds(ids) =>
      assert s == CompanyKey + (IdsText(ids) + rest);
      StartsWithText(CompanyKey, IdsText(ids) + rest);
      ReadIdsText(ids, rest);
    case ProjectIds(ids) =>
      assert s == ProjectKey + (IdsText(ids) + rest);
      StartsWithText(ProjectKey, IdsText(ids) + rest);
      DiffersAt(s, CompanyKey, 0);
      ReadIdsText(ids, rest);
    case ShowCompleted(b) =>
      assert s == ShowCompletedKey + (BoolText(b) + rest);
      StartsWithText(ShowCompletedKey, BoolText(b) + rest);
      DiffersAt(s, CompanyKey, 0);
      DiffersAt(s, ProjectKey, 0);
      ReadBoolText(b, rest);
    case ExcludeArchivedProjects(b) =>
      assert s == ExcludeArchivedKey + (BoolText(b) + rest);
      StartsWithText(ExcludeArchivedKey, BoolText(b) + rest);
      DiffersAt(s, CompanyKey, 0);
      DiffersAt(s, ProjectKey, 0);
      DiffersAt(s, ShowCompletedKey, 0);
      ReadBoolText(b, rest);
    case Search(t) =>
      assert s == SearchKey + (Quote(t) + rest);
      StartsWithText(SearchKey, Quote(t) + rest);
      DiffersAt(s, CompanyKey, 0);
      DiffersAt(s, ProjectKey, 0);
      DiffersAt(s, ShowCompletedKey, 1);
      DiffersAt(s, ExcludeArchivedKey, 0);
      ReadQuotedText(t, rest);
  }

  /** Reads the clauses of the filter object up to, not including, the ` }`
      that closes it. */
  function ReadClauses(s: string): Option<(seq<Clause>, string)> {
    if StartsWith(s, " }") then Some(([], s)) else ReadClausesFrom(s)
  }

  function ReadClausesFrom(s: string): Option<(seq<Clause>, string)>
    decreases |s|
  {
    match ReadClause(s)
    case None => None
    case Some((c, rest)) =>
      if StartsWith(rest, " }") then Some(([c], rest))
      else if StartsWith(rest, " ") then
        match ReadClausesFrom(rest[1..])
        case None => None
        case Some((cs, after)) => Some(([c] + cs, after))
      else None
  }

  predicate ClausesPlain(cs: seq<Clause>) {
    forall i :: 0 <= i < |cs| ==> ClausePlain(cs[i])
  }

  lemma {:induction false} ReadClausesFromText(cs: seq<Clause>, rest: string)
    requires |cs| > 0 && ClausesPlain(cs) && StartsWith(rest, " }")
    ensures ReadClausesFrom(ListText(ClauseText, cs, " ") + rest) == Some((cs, rest))
    decreases |cs|
  {
    var s := ListText(ClauseText, cs, " ") + rest;
    if |cs| == 1 {
      ListTextOne(ClauseText, cs, " ");
      ReadClauseText(cs[0], rest);
      assert [cs[0]] == cs;
    } else {
      ListTextCons(ClauseText, cs, " ");
      var tail := ListText(ClauseText, cs[1..], " ") + rest;
      assert s == ClauseText(cs[0]) + (" " + tail);
      ReadClauseText(cs[0], " " + tail);
      ClausesTextStart(cs[1..], rest);
      ClauseTextStart(cs[1]);
      ReadClausesFromText(cs[1..], rest);
      ReadClausesFromCons(s, cs[0], tail, cs[1..], rest);
      assert [cs[0]] + cs[1..] == cs;
    }
  }

  /** One clause followed by a separating space and more clauses. */
  lemma {:induction false} ReadClausesFromCons(s: string, c: Clause, tail: string, cs: seq<Clause>, rest: string)
    requires ReadClause(s) == Some((c, " " + tail))
    requires |tail| > 0 && tail[0] != '}'
    requires ReadClausesFrom(tail) == Some((cs, rest))
    ensures ReadClausesFrom(s) == Some(([c] + cs, rest))
  {
    assert (" " + tail)[1] == tail[0];
    DiffersAt(" " + tail, " }", 1);
    StartsWithText(" ", tail);
  }

  /** The clauses of a filter object whose values are plain literals (no
      double quote, backslash or line break) read back as written, up to the
      closing ` }`. */
  lemma {:induction false} ReadClausesText(cs: seq<Clause>, rest: string)
    requires ClausesPlain(cs) && StartsWith(rest, " }")
    ensures ReadClauses(ListText(ClauseText, cs, " ") + rest) == Some((cs, rest))
  {
    var s := ListText(ClauseText, cs, " ") + rest;
    if |cs| == 0 {
      assert s == rest;
    } else {
      ReadClausesFromText(cs, rest);
      ClausesTextStart(cs, rest);
      ClauseTextStart(cs[0]);
      DiffersAt(s, " }", 0);
    }
  }

  /** Reads a whole query document. */
  function ReadQuery(s: string): Option<Query> {
    match Expect(QueryHead, s)
    case None => None
    case Some(rest) => ReadFilterPart(rest)
  }

  /** The filter object, then the sort list. */
  function ReadFilterPart(s: string): Option<Query> {
    match ReadClauses(s)
    case None => None
    case Some((filter, rest)) =>
      match Expect(" } sort: [", rest)
      case None => None
      case Some(after) => ReadSortPart(filter, after)
  }

  /** The sort list, then the pagination. */
  function ReadSortPart(filter: seq<Clause>, s: string): Option<Query> {
    match ReadSortKeys(s)
    case None => None
    case Some((sort, rest)) =>
      match Expect(" limit: ", rest)
      case None => None
      case Some(after) => ReadPagePart(filter, sort, after)
  }

  /** The limit, the skip, and the fixed end of the document. */
  function ReadPagePart(filter: seq<Clause>, sort: seq<SortKey>, s: string): Option<Query> {
    match ReadInt(s)
    case None => None
    case Some((limit, rest)) =>
      match Expect(" skip: ", rest)
      case None => None
      case Some(after) =>
        match ReadInt(after)
        case None => None
        case Some((skip, end)) =>
          if end == QueryEnd then Some(Query(filter, sort, limit, skip)) else None
  }

  lemma {:induction false} ReadPagePartText(filter: seq<Clause>, sort: seq<SortKey>, limit: int, skip: int)
    ensures ReadPagePart(filter, sort, IntText(limit) + (" skip: " + (IntText(skip) + QueryEnd)))
         == Some(Query(filter, sort, limit, skip))
  {
    var t6 := " skip: " + (IntText(skip) + QueryEnd);
    assert t6[0] == ' ';
    ReadIntText(limit, t6);
    ExpectText(" skip: ", IntText(skip) + QueryEnd);
    assert QueryEnd[0] == ')';
    ReadIntText(skip, QueryEnd);
  }

  lemma {:induction false} ReadSortPartText(filter: seq<Clause>, q: Query)
    ensures ReadSortPart(filter, ListText(SortKeyText, q.sort, ", ") + ("]"
      + (" limit: " + (IntText(q.limit) + (" skip: " + (IntText(q.skip) + QueryEnd))))))
         == Some(Query(filter, q.sort, q.limit, q.skip))
  {
    var t5 := IntText(q.limit) + (" skip: " + (IntText(q.skip) + QueryEnd));
    ReadSortKeysText(q.sort, " limit: " + t5);
    ExpectText(" limit: ", t5);
    ReadPagePartText(filter, q.sort, q.limit, q.skip);
  }

  /** After the filter object comes the sort list, whatever text follows. */
  lemma {:induction false} ReadFilterPartOf(filter: seq<Clause>, after: string)
    requires ClausesPlain(filter)
    ensures ReadFilterPart(ListText(ClauseText, filter, " ") + (" } sort: [" + after)) == ReadSortPart(filter, after)
  {
    StartsWithText(" }", " sort: [" + after);
    assert " }" + (" sort: [" + after) == " } sort: [" + after;
    ReadClausesText(filter, " } sort: [" + after);
    ExpectText(" } sort: [", after);
  }

  lemma {:induction false} ReadFilterPartText(q: Query)
    requires ClausesPlain(q.filter)
    ensures ReadFilterPart(ListText(ClauseText, q.filter, " ") + (" } sort: [" + (ListText(SortKeyText, q.sort, ", ") + ("]"
      + (" limit: " + (IntText(q.limit) + (" skip: " + (IntText(q.skip) + QueryEnd))))))))
         == Some(q)
  {
    ReadFilterPartOf(q.filter, ListText(SortKeyText, q.sort, ", ") + ("]"
      + (" limit: " + (IntText(q.limit) + (" skip: " + (IntText(q.skip) + QueryEnd))))));
    ReadSortPartText(q.filter, q);
  }

  /** The document of a query whose interpolated values are plain literals
      (no double quote, backslash or line break) reads back as that query: the text carries exactly the clauses, sort
      keys and pagination of the structure. */
  lemma {:induction false} QueryTextRoundTrip(q: Query)
    requires ClausesPlain(q.filter)
    ensures ReadQuery(QueryText(q)) == Some(q)
  {
    var t1 := ListText(ClauseText, q.filter, " ") + (" } sort: [" + (ListText(SortKeyText, q.sort, ", ") + ("]"
      + (" limit: " + (IntText(q.limit) + (" skip: " + (IntText(q.skip) + QueryEnd)))))));
    ExpectText(QueryHead, t1);
    ReadFilterPartText(q);
  }
}

=== FILE: text.dfy ===
/** The string primitives the connector leans on: ASCII lower-casing,
    JavaScript's `String.prototype.includes`, `Array.prototype.join`, and the
    decimal text of a number as a template literal produces it. */
module Text {
  import opened Values

  /** ASCII lower-casing of one character; every other character is unchanged. */
  function Lower(c: char): char {
    if 'A' <= c <= 'Z' then (c as int + 32) as char else c
  }

  /** `s.toLowerCase()`, restricted to the ASCII letters. */
  function LowerAscii(s: string): (r: string)
    ensures |r| == |s|
    ensures forall i :: 0 <= i < |s| && 'A' <= s[i] <= 'Z' ==> r[i] as int == s[i] as int + 32
    ensures forall i :: 0 <= i < |s| && !('A' <= s[i] <= 'Z') ==> r[i] == s[i]
    ensures forall i :: 0 <= i < |r| ==> !('A' <= r[i] <= 'Z')
  {
    seq(|s|, i requires 0 <= i < |s| => Lower(s[i]))
  }

  /** Lower-casing text that is already lower-cased changes nothing. */
  lemma {:induction false} LowerAsciiIdempotent(s: string)
    ensures LowerAscii(LowerAscii(s)) == LowerAscii(s)
  {
    var r := LowerAscii(s);
    var rr := LowerAscii(r);
    forall i | 0 <= i < |r|
      ensures rr[i] == r[i]
    {
      assert !('A' <= r[i] <= 'Z');
    }
  }

  predicate StartsWith(s: string, prefix: string) {
    |prefix| <= |s| && s[..|prefix|] == prefix
  }

  /** `hay.includes(needle)`: a left-to-right scan for a match at each offset. */
  function Includes(hay: string, needle: string): bool
    decreases |hay|
  {
    StartsWith(hay, needle) || (|hay| > 0 && Includes(hay[1..], needle))
  }

  /** `needle` occurs in `hay` starting at offset `i`. */
  ghost predicate OccursAt(hay: string, needle: string, i: int) {
    0 <= i && i + |needle| <= |hay| && hay[i..i + |needle|] == needle
  }

  /** A match found by the scan is an occurrence at some offset. */
  lemma {:induction false} IncludesHasOccurrence(hay: string, needle: string)
    requires Includes(hay, needle)
    ensures exists i :: OccursAt(hay, needle, i)
    decreases |hay|
  {
    if StartsWith(hay, needle) {
      assert OccursAt(hay, needle, 0);
    } else {
      IncludesHasOccurrence(hay[1..], needle);
      var i :| OccursAt(hay[1..], needle, i);
      assert hay[i + 1..i + 1 + |needle|] == hay[1..][i..i + |needle|];
      assert OccursAt(hay, needle, i + 1);
    }
  }

  /** The scan reaches every occurrence. */
  lemma {:induction false} OccurrenceIsIncluded(hay: string, needle: string, i: int)
    requires OccursAt(hay, needle, i)
    ensures Includes(hay, needle)
    decreases i
  {
    if i == 0 {
      assert StartsWith(hay, needle);
    } else {
      assert hay[1..][i - 1..i - 1 + |needle|] == hay[i..i + |needle|];
      OccurrenceIsIncluded(hay[1..], needle, i - 1);
    }
  }

  /** The scan finds a match exactly when the needle occurs at some offset. */
  lemma IncludesIffOccurs(hay: string, needle: string)
    ensures Includes(hay, needle) <==> exists i :: OccursAt(hay, needle, i)
  {
    if Includes(hay, needle) {
      IncludesHasOccurrence(hay, needle);
    }
    forall i | OccursAt(hay, needle, i)
      ensures Includes(hay, needle)
    {
      OccurrenceIsIncluded(hay, needle, i);
    }
  }

  /** Every string includes the empty string. */
  lemma IncludesEmpty(hay: string)
    ensures Includes(hay, "")
  {
    assert StartsWith(hay, "");
  }

  /** `parts.join(sep)` */
  function Join(parts: seq<string>, sep: string): string
    decreases |parts|
  {
    if |parts| == 0 then ""
    else if |parts| == 1 then parts[0]
    else parts[0] + sep + Join(parts[1..], sep)
  }

  /** ECMAScript defines `join` as a left-to-right accumulation: the text so far,
      then the separator, then the next element. The right-nested definition
      above agrees with it. */
  lemma {:induction false} JoinSnoc(parts: seq<string>, last: string, sep: string)
    requires |parts| > 0
    ensures Join(parts + [last], sep) == Join(parts, sep) + sep + last
    decreases |parts|
  {
    if |parts| == 1 {
      assert parts + [last] == [parts[0], last];
    } else {
      assert (parts + [last])[1..] == parts[1..] + [last];
      JoinSnoc(parts[1..], last, sep);
    }
  }

  function TotalLength(parts: seq<string>): nat
    decreases |parts|
  {
    if |parts| == 0 then 0 else |parts[0]| + TotalLength(parts[1..])
  }

  /** The joined text holds every part and one separator between neighbours. */
  lemma {:induction false} JoinLength(parts: seq<string>, sep: string)
    requires |parts| > 0
    ensures |Join(parts, sep)| == TotalLength(parts) + (|parts| - 1) * |sep|
    decreases |parts|
  {
    if |parts| > 1 {
      JoinLength(parts[1..], sep);
    }
  }

  function DigitChar(d: nat): (c: char)
    requires d < 10
    ensures IsDigit(c)
  {
    ('0' as int + d) as char
  }

  predicate IsDigit(c: char) {
    '0' as int <= c as int <= '9' as int
  }

  predicate AllDigits(s: string) {
    forall i :: 0 <= i < |s| ==> IsDigit(s[i])
  }

  /** Decimal text of a natural number, most significant digit first, with no
      leading zeros. */
  function NatText(n: nat): (s: string)
    ensures |s| > 0
    ensures AllDigits(s)
    ensures n > 0 ==> s[0] != '0'
    ensures |s| > 1 ==> s[0] != '0'
    decreases n
  {
    if n < 10 then [DigitChar(n)] else NatText(n / 10) + [DigitChar(n % 10)]
  }

  /** `${n}` for an integer `n`. */
  function IntText(n: int): string {
    if n < 0 then "-" + NatText(-n) else NatText(n)
  }

  /** The value of a string of decimal digits. */
  function DigitsValue(s: string): nat
    requires AllDigits(s)
    decreases |s|
  {
    if |s| == 0 then 0
    else
      assert IsDigit(s[|s| - 1]);
      DigitsValue(s[..|s| - 1]) * 10 + (s[|s| - 1] as int - '0' as int)
  }

  lemma {:induction false} DigitsValueOfNatText(n: nat)
    ensures DigitsValue(NatText(n)) == n
    decreases n
  {
    var s := NatText(n);
    if n >= 10 {
      DigitsValueOfNatText(n / 10);
      assert s[..|s| - 1] == NatText(n / 10);
    }
  }

  /** Splits `s` into its longest all-digit prefix and the rest. */
  function ReadDigits(s: string): (r: (string, string))
    ensures r.0 + r.1 == s
    ensures AllDigits(r.0)
    decreases |s|
  {
    if |s| > 0 && IsDigit(s[0]) then
      var (digits, rest) := ReadDigits(s[1..]);
      assert s == [s[0]] + s[1..];
      ([s[0]] + digits, rest)
    else ("", s)
  }

  lemma {:induction false} ReadDigitsOf(digits: string, rest: string)
    requires AllDigits(digits)
    requires rest == "" || !IsDigit(rest[0])
    ensures ReadDigits(digits + rest) == (digits, rest)
    decreases |digits|
  {
    if |digits| > 0 {
      assert (digits + rest)[1..] == digits[1..] + rest;
      ReadDigitsOf(digits[1..], rest);
      assert [digits[0]] + digits[1..] == digits;
    } else {
      assert digits + rest == rest;
    }
  }

  /** Reads an optionally negative decimal integer from the front of `s` and
      returns it with the text after it. */
  function ReadInt(s: string): (r: Option<(int, string)>)
    ensures r.Some? ==> |r.value.1| < |s|
  {
    var negative := |s| > 0 && s[0] == '-';
    var split := ReadDigits(if negative then s[1..] else s);
    if |split.0| == 0 then None
    else if negative then Some((0 - DigitsValue(split.0) as int, split.1))
    else Some((DigitsValue(split.0) as int, split.1))
  }

  lemma {:induction false} ReadIntOfDigits(digits: string, rest: string)
    requires |digits| > 0 && AllDigits(digits)
    requires rest == "" || !IsDigit(rest[0])
    ensures ReadInt(digits + rest) == Some((DigitsValue(digits) as int, rest))
  {
    ReadDigitsOf(digits, rest);
    assert (digits + rest)[0] == digits[0];
    assert IsDigit(digits[0]);
  }

  lemma {:induction false} ReadIntOfNegativeDigits(digits: string, rest: string)
    requires |digits| > 0 && AllDigits(digits)
    requires rest == "" || !IsDigit(rest[0])
    ensures ReadInt("-" + (digits + rest)) == Some((0 - DigitsValue(digits) as int, rest))
  {
    var s := "-" + (digits + rest);
    assert s[0] == '-';
    assert s[1..] == digits + rest;
    ReadDigitsOf(digits, rest);
    var split := ReadDigits(s[1..]);
    assert split == (digits, rest);
  }

  lemma ConcatAssociative(a: string, b: string, c: string)
    ensures (a + b) + c == a + (b + c)
  {
  }

  /** Reading the text of an integer back gives the integer, provided the text
      that follows does not continue it with more digits. */
  lemma {:induction false} ReadIntText(n: int, rest: string)
    requires rest == "" || !IsDigit(rest[0])
    ensures ReadInt(IntText(n) + rest) == Some((n, rest))
  {
    if n < 0 {
      DigitsValueOfNatText(-n);
      ReadIntOfNegativeDigits(NatText(-n), rest);
      assert IntText(n) == "-" + NatText(-n);
      ConcatAssociative("-", NatText(-n), rest);
    } else {
      DigitsValueOfNatText(n);
      ReadIntOfDigits(NatText(n), rest);
    }
  }
}

=== FILE: values.dfy ===
/** The two ways a value can be absent in the connector: an optional node
    parameter that was not set (or a reader that found nothing to read), and a
    query the operation refuses to build. */
module Values {

  /** A node parameter or a parsed piece of text that may be missing. */
  datatype Option<+T> = None | Some(value: T) {

    /** The value, or `fallback` when it is missing: how the operations apply
        a parameter's default. */
    function OrElse(fallback: T): T {
      if Some? then value else fallback
    }
  }

  /** A built value, or the message explaining why it was refused. */
  datatype Checked<+R> = Accepted(value: R) | Refused(reason: string)
}
